=== FILE: README.md ===
# Cross-stitch symbol chart: a Dafny model

The program turns a photograph into a cross-stitch style chart. It checks the input
path, resizes the image to a grid of `width × height` pixels, replaces every pixel by the
symbol of the nearest palette colour (seven colours, seven symbols), and draws the
symbols onto a white canvas of 12-pixel cells with grey gridlines on top.

This project models that pipeline in Dafny and proves what it promises:

- `palette.dfy` (module `Palette`): the palette and symbol tables and `closest_color` as
  a pure argmin over squared RGB distance. Ties go to the first entry, as with `np.argmin`.
- `validation.dfy` (module `Validation`): the path test. The path must exist, and its
  lower-cased form must end in `.jpg`, `.jpeg` or `.png`.
- `grid.dfy` (module `Grid`): the nested loop that builds the symbol grid and counts the
  pixels. It is a method over the pixel grid `pixels[x, y]` (an `array2`), checked against
  a recursive reference grid.
- `render.dfy` (module `Renderer`): the layout arithmetic and the drawing loops. The
  canvas is a class that records the draw commands issued on it, in order: glyphs at
  their anchors, then vertical and horizontal gridlines. Also the centring offset
  `(12 - w) // 2` and the number of lines `range(0, extent, 12)` yields.
- `pipeline.dfy` (module `Pipeline`): `convert_image_to_ascii_image` as a whole. It ends
  in `Ok(canvas)`, in `Err(InvalidInput)` (the `else` branch), or in
  `Err(ProcessingError)` (the catch-all `except`).
- `outcomes.dfy` (module `Outcomes`): the result type for those outcomes.

Nearest-colour matching uses the squared distance instead of the floating-point norm.
The square root is strictly monotone on non-negative numbers, so the index of the
smallest distance is the same.

The program's exceptions become explicit errors. An empty palette makes the distance
computation on app.py:16 raise, because the palette's shape does not broadcast against
the pixel's. A palette index with no symbol makes `symbols[...]` raise an `IndexError`. Both
are caught by the handler at app.py:75-76. The model returns `Err(ProcessingError)` for
them whenever at least one pixel is visited (`Grid.Convertible`).

The gridlines are exactly the values of `range(0, output_width, 12)` and
`range(0, output_height, 12)`, which stop strictly below the edge. So a chart of
`w × h` cells has exactly `w` vertical and `h` horizontal lines, at 0, 12, …, and none
on the right or bottom edge. A 2 × 2 chart gets 2 + 2 lines. A line at the edge
coordinate would lie just outside the canvas anyway.

## Model

Some definitions have no row of their own because the rows below characterise them.
`Validation.Accepted` is the test of app.py:22 as written; `AcceptedIff` characterises it.
`Renderer.GlyphOps`, `Renderer.VerticalLines` and `Renderer.HorizontalLines` are the
draw-command sequences of app.py:60-68. `GlyphAt` and `GlyphCount` characterise the first;
`VerticalLinesExact` and `HorizontalLinesExact` the other two.

| member | source | states |
|---|---|---|
| `Palette.SqDist` | app.py:16 | the squared distance is zero exactly when the pixel equals the palette colour |
| `Palette.ArgminPrefix` | app.py:16-17 | a left-to-right scan over the first n entries returns an index below n whose distance is no larger than any entry's and strictly smaller than every earlier entry's |
| `Palette.ClosestColor` | app.py:12-18 | for a non-empty palette the result is a valid index; its entry is nearest to the pixel; no earlier entry is as near (first occurrence wins ties) |
| `Palette.ClosestColorIsFirstArgmin` | app.py:17 | an index is the first argmin of the distances if and only if it is the one ClosestColor returns |
| `Palette.ExactMatch` | app.py:16-17 | a pixel equal to palette entry i is matched to an entry equal to the pixel, at index i or before |
| `Palette.ExactMatchDistinct` | app.py:16-17 | in a palette without duplicates a pixel equal to entry i is matched to i |
| `Palette.TablesWellFormed` | app.py:6-10 | the program's tables hold 7 colours and 7 symbols, and no colour is repeated |
| `Palette.BlackWhiteScenario` | app.py:12-18 | with palette black, white: (10,10,10) matches index 0 and (250,250,250) index 1 |
| `Validation.LowerChar` | app.py:22 | lower-casing maps A-Z to a-z and leaves every other character as it is; the result is never an upper-case letter |
| `Validation.LowerIsLowerCase` | app.py:22 | the lower-cased path has the same length, contains no upper-case letter, differs from the path only at upper-case letters, and lower-casing it again changes nothing |
| `Validation.LowerEndsWith` | app.py:22 | for a lower-case suffix: the lower-cased path ends with it iff the path ends with it ignoring case |
| `Validation.AcceptedIff` | app.py:22 | a path is accepted iff it exists and ends, ignoring case, in one of `.jpg`, `.jpeg`, `.png` |
| `Validation.AcceptedIgnoresCase` | app.py:22 | lower-casing the path first does not change the verdict |
| `Validation.AcceptanceExamples` | app.py:22 | `missing.gif` and `image.jpg.txt` are rejected; `photo.JPEG` and `test_img_2.jpg` are accepted |
| `Grid.SymbolRow` | app.py:33-37 | the first n symbols of row y: n of them, each the symbol of the palette entry nearest to its pixel |
| `Grid.SymbolRows` | app.py:32-39 | the first n rows: n rows of `width` symbols, cell [y][x] the symbol nearest to pixel (x, y) |
| `Grid.SymbolGrid` | app.py:32-39 | the symbol grid has `height` rows of `width` symbols, each one of the configured symbols |
| `Grid.BuildGrid` | app.py:29-39 | the loop succeeds iff every pixel can be matched and given a symbol; on success it yields `height` rows of `width` symbols, cell [y][x] = `symbols[closest_color(pixels[x, y])]`, equal to SymbolGrid, and `count == width * height`; otherwise a processing error |
| `Grid.BuiltGridIsSymbolGrid` | app.py:32-39 | any grid of the right shape whose every cell holds the nearest symbol is the symbol grid |
| `Grid.EnoughSymbolsConvert` | app.py:36-37 | with a non-empty palette and at least as many symbols as colours, no pixel can fail |
| `Grid.TablesConvert` | app.py:6-10 | the program's own tables never fail, whatever the pixels |
| `Renderer.Canvas.constructor` | app.py:42-44 | a new canvas has the given size and background and nothing drawn on it |
| `Renderer.Canvas.DrawText` | app.py:62 | drawing a glyph appends exactly that glyph command |
| `Renderer.Canvas.DrawLine` | app.py:66 | drawing a line appends exactly that line command |
| `Renderer.Offset` | app.py:56-57 | the offset is half the free space rounded down: the margin before the glyph is at most the margin after it, which exceeds it by at most one pixel |
| `Renderer.OffsetInsideCell` | app.py:56-57 | a glyph no wider (taller) than the cell, placed at the offset, lies inside the cell |
| `Renderer.LineCount` | app.py:65-68 | `range(0, extent, 12)` yields exactly the positions 12i that lie strictly below extent |
| `Renderer.LineCountOfMultiple` | app.py:42-43 | for a canvas edge at 12k the number of lines is exactly k |
| `Renderer.GlyphCount` | app.py:60-62 | a grid of h rows of w symbols issues exactly w·h glyph commands |
| `Renderer.GlyphAt` | app.py:60-62 | glyph command number y·w + x draws symbol [y][x] at (12x + x_offset, 12y + y_offset) |
| `Renderer.VerticalLinesExact` | app.py:65-66 | on a canvas of w × h cells: exactly w vertical lines, at multiples of 12 below the right edge, each from the top to the bottom edge, one at every 12i for i < w |
| `Renderer.HorizontalLinesExact` | app.py:67-68 | likewise exactly h horizontal lines, at multiples of 12 below the bottom edge, each spanning the full width |
| `Renderer.NextVerticalLine` | app.py:65-66 | one more step of the range loop appends the next vertical line |
| `Renderer.NextHorizontalLine` | app.py:67-68 | one more step of the range loop appends the next horizontal line |
| `Renderer.DrawGlyphs` | app.py:60-62 | the canvas receives, after what it already held, one glyph per grid cell in row-major order, at the cell's anchor |
| `Renderer.DrawVerticalLines` | app.py:65-66 | the canvas receives, after what it already held, one full-height vertical line per value of `range(0, output_width, 12)`, in order |
| `Renderer.DrawHorizontalLines` | app.py:67-68 | the canvas receives, after what it already held, one full-width horizontal line per value of `range(0, output_height, 12)`, in order |
| `Renderer.Render` | app.py:42-68 | the canvas is `12·width × 12·height`, white, and receives the glyphs in row-major order, then the vertical, then the horizontal gridlines, and nothing else |
| `Renderer.TwoByTwo` | app.py:42-68 | a 2 × 2 grid gives 4 glyphs, vertical lines at x = 0 and 12 and horizontal lines at y = 0 and 12 on a 24 × 24 canvas |
| `Pipeline.Convert` | app.py:20-78 | invalid input iff the path is not accepted; processing error iff it is accepted but some pixel cannot be given a symbol; otherwise a fresh canvas with the size and draw commands of the symbol grid, and `count == width * height` |

## Left out

- Image loading, conversion to RGB and resizing (app.py:24-26) are library calls. Their resampling is not visible here. The resized pixel grid is an input, indexed `pixels[x, y]`. Failures of these calls would be processing errors; they are not modelled.
- Loading the font and falling back to the default font (app.py:49-52) are library calls. Measuring the bounding box of "X" (app.py:55) is one too. The right and bottom of that box are the parameters `glyphWidth` and `glyphHeight`.
- Rasterising text and lines (app.py:62, 66, 68) is not modelled. The canvas records the draw commands, not pixels. Line width 1 and the font object passed to `draw.text` are not recorded.
- Saving and showing the image (app.py:71-72) are file-system and display I/O. `Pipeline.Convert` returns the canvas that would be saved.
- The file-system existence check (app.py:22) is the boolean parameter `pathExists`.
- The console messages (app.py:46, 73, 76, 78) are left out. The pixel count of line 46 is returned as `count`.
- `Palette.SqDist`: the floating-point Euclidean norm (app.py:16) is replaced by the exact squared integer distance. Only the index of the minimum is used, and that index is the same.
- `Validation.LowerChar`: only A-Z are lower-cased. Python's `str.lower` also maps other Unicode letters. Some of them change the string's length, such as 'İ' becoming 'i' plus a combining dot; the model's lower-casing never does. None of them lower-cases to the ASCII letters or the dot of an accepted extension, so the verdict is the same.
- Exceptions raised for other reasons inside the `try` block (app.py:23, 75-76) are not modelled. Examples are decoding errors and library errors while drawing.
- The example call at module level (app.py:80-84) is left out.

=== FILE: grid.dfy ===
/** Construction of the symbol grid from the resized pixel grid
    (the nested loop of convert_image_to_ascii_image). */
module Grid {
  import opened Outcomes
  import opened Palette

  /** Every pixel of the grid can be matched and its symbol looked up: the palette is
      non-empty and each nearest index has a symbol. With no pixel at all nothing is
      looked up, so nothing can fail. The pixel grid is indexed pixels[x, y]. */
  predicate Convertible(pixels: array2<Rgb>, colors: seq<Rgb>, symbols: seq<char>)
    reads pixels
  {
    pixels.Length0 == 0 || pixels.Length1 == 0 ||
    (|colors| > 0 &&
     forall x, y :: 0 <= x < pixels.Length0 && 0 <= y < pixels.Length1 ==>
       ClosestColor(pixels[x, y], colors) < |symbols|)
  }

  /** Cell (x, y) of a grid holds the symbol of the palette entry nearest to pixel (x, y). */
  predicate SymbolAt(pixels: array2<Rgb>, colors: seq<Rgb>, symbols: seq<char>, x: int, y: int, c: char)
    requires 0 <= x < pixels.Length0 && 0 <= y < pixels.Length1
    reads pixels
  {
    |colors| > 0 && ClosestColor(pixels[x, y], colors) < |symbols| &&
    c == symbols[ClosestColor(pixels[x, y], colors)]
  }

  /** The first n symbols of row y of the symbol grid. */
  function SymbolRow(pixels: array2<Rgb>, colors: seq<Rgb>, symbols: seq<char>, y: int, n: nat): (row: seq<char>)
    requires Convertible(pixels, colors, symbols)
    requires 0 <= y < pixels.Length1 && n <= pixels.Length0
    reads pixels
    ensures |row| == n
    ensures forall x :: 0 <= x < n ==> SymbolAt(pixels, colors, symbols, x, y, row[x])
  {
    if n == 0 then []
    else SymbolRow(pixels, colors, symbols, y, n - 1) + [symbols[ClosestColor(pixels[n - 1, y], colors)]]
  }

  /** The first n rows of the symbol grid. */
  function SymbolRows(pixels: array2<Rgb>, colors: seq<Rgb>, symbols: seq<char>, n: nat): (art: seq<seq<char>>)
    requires Convertible(pixels, colors, symbols)
    requires n <= pixels.Length1
    reads pixels
    ensures |art| == n
    ensures forall y :: 0 <= y < n ==> |art[y]| == pixels.Length0
    ensures forall y, x :: 0 <= y < n && 0 <= x < pixels.Length0 ==> SymbolAt(pixels, colors, symbols, x, y, art[y][x])
  {
    if n == 0 then []
    else SymbolRows(pixels, colors, symbols, n - 1) + [SymbolRow(pixels, colors, symbols, n - 1, pixels.Length0)]
  }

  /** The symbol grid: one row per pixel row y, one symbol per pixel x in it. */
  function SymbolGrid(pixels: array2<Rgb>, colors: seq<Rgb>, symbols: seq<char>): (art: seq<seq<char>>)
    requires Convertible(pixels, colors, symbols)
    reads pixels
    ensures |art| == pixels.Length1
    ensures forall y :: 0 <= y < |art| ==> |art[y]| == pixels.Length0
    ensures forall y, x :: 0 <= y < |art| && 0 <= x < |art[y]| ==> art[y][x] in symbols
  {
    SymbolRows(pixels, colors, symbols, pixels.Length1)
  }

  /** Builds the grid row by row in row-major order, counting the pixels processed.
      An empty palette or a missing symbol raises inside the loop; that is the
      processing-error outcome. */
  method BuildGrid(pixels: array2<Rgb>, colors: seq<Rgb>, symbols: seq<char>)
    returns (res: Result<seq<seq<char>>>, count: nat)
    ensures res.Ok? <==> Convertible(pixels, colors, symbols)
    ensures res.Err? ==> res.error == ProcessingError
    ensures res.Ok? ==> |res.value| == pixels.Length1
    ensures res.Ok? ==> forall y :: 0 <= y < |res.value| ==> |res.value[y]| == pixels.Length0
    ensures res.Ok? ==> forall y, x :: 0 <= y < pixels.Length1 && 0 <= x < pixels.Length0 ==>
                          SymbolAt(pixels, colors, symbols, x, y, res.value[y][x])
    ensures res.Ok? ==> count == pixels.Length0 * pixels.Length1
    ensures res.Ok? ==> res.value == SymbolGrid(pixels, colors, symbols)
  {
    var width, height := pixels.Length0, pixels.Length1;
    var art: seq<seq<char>> := [];
    count := 0;
    var y := 0;
    while y < height
      invariant 0 <= y <= height
      invariant |art| == y
      invariant forall j :: 0 <= j < y ==> |art[j]| == width
      invariant forall j, i :: 0 <= j < y && 0 <= i < width ==> SymbolAt(pixels, colors, symbols, i, j, art[j][i])
      invariant y > 0 && width > 0 ==> |colors| > 0
      invariant count == y * width
    {
      var row: seq<char> := [];
      var x := 0;
      while x < width
        invariant 0 <= x <= width
        invariant |row| == x
        invariant forall i :: 0 <= i < x ==> SymbolAt(pixels, colors, symbols, i, y, row[i])
        invariant (y > 0 && width > 0) || x > 0 ==> |colors| > 0
        invariant count == y * width + x
      {
        if |colors| == 0 {
          return Err(ProcessingError), count;
        }
        var k := ClosestColor(pixels[x, y], colors);
        if k >= |symbols| {
          return Err(ProcessingError), count;
        }
        RowStep(pixels, colors, symbols, row, x, y);
        row := row + [symbols[k]];
        count := count + 1;
        x := x + 1;
      }
      assert count == (y + 1) * width;
      GridStep(pixels, colors, symbols, art, row);
      art := art + [row];
      y := y + 1;
    }
    CellsConvertible(pixels, colors, symbols, art);
    BuiltGridIsSymbolGrid(pixels, colors, symbols, art);
    res := Ok(art);
  }

  /** Appending the symbol of pixel (x, y) extends a correct prefix of row y. */
  lemma RowStep(pixels: array2<Rgb>, colors: seq<Rgb>, symbols: seq<char>, row: seq<char>, x: int, y: int)
    requires 0 <= x < pixels.Length0 && 0 <= y < pixels.Length1 && |row| == x
    requires |colors| > 0 && ClosestColor(pixels[x, y], colors) < |symbols|
    requires forall i :: 0 <= i < x ==> SymbolAt(pixels, colors, symbols, i, y, row[i])
    ensures forall i :: 0 <= i < x + 1 ==>
              SymbolAt(pixels, colors, symbols, i, y, (row + [symbols[ClosestColor(pixels[x, y], colors)]])[i])
  {
    var next := row + [symbols[ClosestColor(pixels[x, y], colors)]];
    forall i | 0 <= i < x + 1
      ensures SymbolAt(pixels, colors, symbols, i, y, next[i])
    {
      if i < x {
        assert next[i] == row[i];
      }
    }
  }

  /** Appending a correct row y extends a correct prefix of the grid. */
  lemma GridStep(pixels: array2<Rgb>, colors: seq<Rgb>, symbols: seq<char>, art: seq<seq<char>>, row: seq<char>)
    requires |art| < pixels.Length1 && |row| == pixels.Length0
    requires forall j :: 0 <= j < |art| ==> |art[j]| == pixels.Length0
    requires forall j, i :: 0 <= j < |art| && 0 <= i < pixels.Length0 ==> SymbolAt(pixels, colors, symbols, i, j, art[j][i])
    requires forall i :: 0 <= i < pixels.Length0 ==> SymbolAt(pixels, colors, symbols, i, |art|, row[i])
    ensures forall j :: 0 <= j < |art| + 1 ==> |(art + [row])[j]| == pixels.Length0
    ensures forall j, i :: 0 <= j < |art| + 1 && 0 <= i < pixels.Length0 ==>
              SymbolAt(pixels, colors, symbols, i, j, (art + [row])[j][i])
  {
    var next := art + [row];
    forall j, i | 0 <= j < |art| + 1 && 0 <= i < pixels.Length0
      ensures SymbolAt(pixels, colors, symbols, i, j, next[j][i])
    {
      if j < |art| {
        assert next[j] == art[j];
      }
    }
  }

  /** A grid of the right shape with a symbol in every cell shows the pixels convertible. */
  lemma CellsConvertible(pixels: array2<Rgb>, colors: seq<Rgb>, symbols: seq<char>, art: seq<seq<char>>)
    requires |art| == pixels.Length1
    requires forall y :: 0 <= y < |art| ==> |art[y]| == pixels.Length0
    requires forall y, x :: 0 <= y < pixels.Length1 && 0 <= x < pixels.Length0 ==>
               SymbolAt(pixels, colors, symbols, x, y, art[y][x])
    ensures Convertible(pixels, colors, symbols)
  {
    if pixels.Length0 > 0 && pixels.Length1 > 0 {
      assert SymbolAt(pixels, colors, symbols, 0, 0, art[0][0]);
      forall x, y | 0 <= x < pixels.Length0 && 0 <= y < pixels.Length1
        ensures ClosestColor(pixels[x, y], colors) < |symbols|
      {
        assert SymbolAt(pixels, colors, symbols, x, y, art[y][x]);
      }
    }
  }

  /** The grid the loop builds is the symbol grid. */
  lemma BuiltGridIsSymbolGrid(pixels: array2<Rgb>, colors: seq<Rgb>, symbols: seq<char>, art: seq<seq<char>>)
    requires Convertible(pixels, colors, symbols)
    requires |art| == pixels.Length1
    requires forall y :: 0 <= y < |art| ==> |art[y]| == pixels.Length0
    requires forall y, x :: 0 <= y < pixels.Length1 && 0 <= x < pixels.Length0 ==>
               SymbolAt(pixels, colors, symbols, x, y, art[y][x])
    ensures art == SymbolGrid(pixels, colors, symbols)
  {
    var g := SymbolGrid(pixels, colors, symbols);
    forall y | 0 <= y < |art| ensures art[y] == g[y] {
      forall x | 0 <= x < |art[y]| ensures art[y][x] == g[y][x] {
        assert SymbolAt(pixels, colors, symbols, x, y, art[y][x]);
      }
    }
  }

  /** A palette with at least as many symbols as colours never fails, in particular the
      program's own tables. */
  lemma EnoughSymbolsConvert(pixels: array2<Rgb>, colors: seq<Rgb>, symbols: seq<char>)
    requires 0 < |colors| <= |symbols|
    ensures Convertible(pixels, colors, symbols)
  {
  }

  lemma TablesConvert(pixels: array2<Rgb>)
    ensures Convertible(pixels, Colors, Symbols)
  {
  }

  /** An empty palette fails on the first pixel. */
  lemma EmptyPaletteFails(pixels: array2<Rgb>, symbols: seq<char>)
    requires pixels.Length0 > 0 && pixels.Length1 > 0
    ensures !Convertible(pixels, [], symbols)
  {
  }
}

=== FILE: outcomes.dfy ===
/** The two ways a conversion can end without an output image. */
module Outcomes {

  /** InvalidInput: the path does not exist or has an unsupported extension.
      ProcessingError: an exception raised while converting (caught by the catch-all handler). */
  datatype Error = InvalidInput | ProcessingError

  datatype Result<+T> = Ok(value: T) | Err(error: Error)
}

=== FILE: palette.dfy ===
/** Nearest-colour matching of one RGB pixel against the palette (closest_color). */
module Palette {

  /** One colour channel as delivered by an RGB image: 0..255. */
  type Channel = x: int | 0 <= x < 256

  datatype Rgb = Rgb(r: Channel, g: Channel, b: Channel)

  /** The palette of the program, in order. */
  const Colors: seq<Rgb> := [
    Rgb(92, 69, 53), Rgb(192, 194, 189), Rgb(64, 53, 45),
    Rgb(123, 123, 118), Rgb(187, 144, 101), Rgb(55, 44, 41), Rgb(123, 90, 101)
  ]

  /** The symbol paired with each palette entry, in the same order. */
  const Symbols: seq<char> := ['#', 'O', 'X', '\\', 'S', '*', '%']

  /** Squared Euclidean distance in RGB space. The program uses the distance itself;
      the square root is strictly monotone on non-negative values, so both give the
      same ordering and hence the same argmin. */
  function SqDist(p: Rgb, c: Rgb): (d: nat)
    ensures d == 0 <==> p == c
  {
    var dr, dg, db := p.r - c.r, p.g - c.g, p.b - c.b;
    dr * dr + dg * dg + db * db
  }

  /** i is the first index at which the distance to p is smallest
      (the definition of numpy's argmin, ties to the first occurrence). */
  ghost predicate IsFirstArgmin(p: Rgb, colors: seq<Rgb>, i: int)
  {
    IsFirstArgminOf(p, colors, |colors|, i)
  }

  /** i is the first index of the smallest distance among the first n entries. */
  ghost predicate IsFirstArgminOf(p: Rgb, colors: seq<Rgb>, n: nat, i: int)
    requires n <= |colors|
  {
    0 <= i < n &&
    (forall j :: 0 <= j < n ==> SqDist(p, colors[i]) <= SqDist(p, colors[j])) &&
    (forall j :: 0 <= j < i ==> SqDist(p, colors[i]) < SqDist(p, colors[j]))
  }

  /** The first index of the minimum distance among colors[..n], found by a left-to-right
      scan that replaces the candidate only on a strictly smaller distance. */
  function ArgminPrefix(p: Rgb, colors: seq<Rgb>, n: nat): (k: nat)
    requires 0 < n <= |colors|
    ensures IsFirstArgminOf(p, colors, n, k)
    decreases n
  {
    if n == 1 then 0
    else
      var k := ArgminPrefix(p, colors, n - 1);
      if SqDist(p, colors[n - 1]) < SqDist(p, colors[k]) then n - 1 else k
  }

  /** Index of the palette entry nearest to p; ties go to the earliest entry. */
  function ClosestColor(p: Rgb, colors: seq<Rgb>): (k: nat)
    requires |colors| > 0
    ensures IsFirstArgmin(p, colors, k)
  {
    ArgminPrefix(p, colors, |colors|)
  }

  /** ClosestColor is exactly the first argmin: it satisfies the definition, and no other
      index does. */
  lemma ClosestColorIsFirstArgmin(p: Rgb, colors: seq<Rgb>, i: int)
    requires |colors| > 0
    ensures IsFirstArgmin(p, colors, i) <==> i == ClosestColor(p, colors)
  {
  }

  /** A pixel equal to a palette entry is matched to an entry equal to it, at that
      entry's index or at an earlier duplicate of it. */
  lemma ExactMatch(p: Rgb, colors: seq<Rgb>, i: int)
    requires 0 <= i < |colors| && colors[i] == p
    ensures colors[ClosestColor(p, colors)] == p
    ensures ClosestColor(p, colors) <= i
  {
    var k := ClosestColor(p, colors);
    assert SqDist(p, colors[i]) == 0;
    assert SqDist(p, colors[k]) == 0;
  }

  /** In a palette without duplicates, a pixel equal to entry i is matched to i. */
  lemma ExactMatchDistinct(p: Rgb, colors: seq<Rgb>, i: int)
    requires 0 <= i < |colors| && colors[i] == p
    requires forall a, b :: 0 <= a < b < |colors| ==> colors[a] != colors[b]
    ensures ClosestColor(p, colors) == i
  {
    ExactMatch(p, colors, i);
  }

  /** The program's palette has no duplicates and is paired with as many symbols. */
  lemma TablesWellFormed()
    ensures |Colors| == |Symbols| == 7
    ensures forall a, b :: 0 <= a < b < |Colors| ==> Colors[a] != Colors[b]
  {
  }

  /** Black/white example: a dark pixel matches black, a light one white. */
  lemma BlackWhiteScenario()
    ensures ClosestColor(Rgb(10, 10, 10), [Rgb(0, 0, 0), Rgb(255, 255, 255)]) == 0
    ensures ClosestColor(Rgb(250, 250, 250), [Rgb(0, 0, 0), Rgb(255, 255, 255)]) == 1
  {
  }
}

=== FILE: pipeline.dfy ===
/** The whole conversion (convert_image_to_ascii_image): validate the path, build the
    symbol grid from the resized pixels, render it. The image is loaded and resized
    outside the model: pixels is the resized grid, indexed pixels[x, y]. */
module Pipeline {
  import opened Outcomes
  import opened Palette
  import opened Validation
  import opened Grid
  import opened Renderer

  /** Converts the image at path. pathExists stands for the file-system check;
      glyphWidth and glyphHeight are the right and bottom of the bounding box of "X" in
      the font. Ends with the rendered canvas (saved by the caller), or with the reason
      no output is produced. */
  method Convert(path: string, pathExists: bool, pixels: array2<Rgb>, colors: seq<Rgb>, symbols: seq<char>,
                 glyphWidth: int, glyphHeight: int)
    returns (res: Result<Canvas>, count: nat)
    ensures res == Err(InvalidInput) <==> !Accepted(path, pathExists)
    ensures res == Err(ProcessingError) <==> Accepted(path, pathExists) && !Convertible(pixels, colors, symbols)
    ensures res.Ok? ==> Accepted(path, pathExists) && Convertible(pixels, colors, symbols)
    ensures res.Ok? ==> count == pixels.Length0 * pixels.Length1
    ensures res.Ok? ==> fresh(res.value)
    ensures res.Ok? ==> res.value.width == pixels.Length0 * CellSize && res.value.height == pixels.Length1 * CellSize
    ensures res.Ok? ==>
              res.value.ops ==
                GlyphOps(SymbolGrid(pixels, colors, symbols), Offset(glyphWidth), Offset(glyphHeight)) +
                VerticalLines(pixels.Length0 * CellSize, pixels.Length1 * CellSize) +
                HorizontalLines(pixels.Length0 * CellSize, pixels.Length1 * CellSize)
  {
    count := 0;
    if !Accepted(path, pathExists) {
      return Err(InvalidInput), count;
    }
    var grid;
    grid, count := BuildGrid(pixels, colors, symbols);
    if grid.Err? {
      return Err(ProcessingError), count;
    }
    var canvas := Render(grid.value, pixels.Length0, pixels.Length1, glyphWidth, glyphHeight);
    res := Ok(canvas);
  }
}

=== FILE: render.dfy ===
/** Rendering of the symbol grid onto a new canvas: each symbol centred in a square
    cell of CellSize pixels, then gridlines over the glyphs. Drawing is recorded as the
    sequence of draw commands issued on the canvas; rasterisation is not modelled. */
module Renderer {

  /** The font size, which is also the side of a cell in pixels. */
  const CellSize: int := 12

  datatype Point = Point(x: int, y: int)

  datatype Paint = White | Black | Gray

  /** One drawing call: a glyph at its anchor, or a one-pixel line between two points. */
  datatype Op =
    | Text(at: Point, symbol: char, fill: Paint)
    | Line(from: Point, to: Point, fill: Paint)

  /** A canvas of a fixed size and background that records what is drawn on it, in order. */
  class Canvas {
    const width: int
    const height: int
    const background: Paint
    var ops: seq<Op>

    constructor (width: int, height: int, background: Paint)
      ensures this.width == width && this.height == height && this.background == background
      ensures ops == []
    {
      this.width := width;
      this.height := height;
      this.background := background;
      ops := [];
    }

    method DrawText(at: Point, symbol: char, fill: Paint)
      modifies this
      ensures ops == old(ops) + [Text(at, symbol, fill)]
    {
      ops := ops + [Text(at, symbol, fill)];
    }

    method DrawLine(from: Point, to: Point, fill: Paint)
      modifies this
      ensures ops == old(ops) + [Line(from, to, fill)]
    {
      ops := ops + [Line(from, to, fill)];
    }
  }

  /** Centring offset of a glyph of the given extent inside a cell: half the free space,
      rounded down. The margin before the glyph is never larger than the margin after
      it, and the two differ by at most one pixel. */
  function Offset(extent: int): (r: int)
    ensures r <= CellSize - extent - r <= r + 1
  {
    (CellSize - extent) / 2
  }

  /** A glyph no larger than the cell lies entirely inside it. */
  lemma OffsetInsideCell(extent: int)
    requires 0 <= extent <= CellSize
    ensures 0 <= Offset(extent) && Offset(extent) + extent <= CellSize
  {
  }

  /** Where the glyph of cell (x, y) is drawn: the cell's top-left corner plus the offsets. */
  function Anchor(x: int, y: int, xOffset: int, yOffset: int): Point
  {
    Point(x * CellSize + xOffset, y * CellSize + yOffset)
  }

  /** The i-th value of range(0, extent, CellSize). */
  function LinePos(i: int): int
  {
    i * CellSize
  }

  /** The number of values range(0, extent, CellSize) yields: the positions strictly
      below extent, stepping by CellSize from 0. */
  function LineCount(extent: int): (n: nat)
    ensures forall i: nat :: i < n <==> LinePos(i) < extent
    decreases extent
  {
    if extent <= 0 then 0
    else
      var rest := LineCount(extent - CellSize);
      LineStep(extent, rest);
      1 + rest
  }

  /** If rest positions lie below extent - CellSize, then one more lies below extent. */
  lemma LineStep(extent: int, rest: nat)
    requires extent > 0
    requires forall i: nat :: i < rest <==> LinePos(i) < extent - CellSize
    ensures forall i: nat :: i < 1 + rest <==> LinePos(i) < extent
  {
    forall i: nat
      ensures i < 1 + rest <==> LinePos(i) < extent
    {
      if i > 0 {
        assert LinePos(i - 1) == LinePos(i) - CellSize;
      }
    }
  }

  lemma {:induction false} LineCountOfMultiple(k: nat)
    ensures LineCount(LinePos(k)) == k
  {
    if k > 0 {
      LineCountOfMultiple(k - 1);
      assert LinePos(k) - CellSize == LinePos(k - 1);
    }
  }

  /** The vertical gridlines, one per value of range(0, width, CellSize), each spanning
      the full height. */
  function VerticalLines(width: int, height: int): seq<Op>
  {
    seq(LineCount(width), i requires 0 <= i < LineCount(width) =>
      Line(Point(LinePos(i), 0), Point(LinePos(i), height), Gray))
  }

  /** The horizontal gridlines, one per value of range(0, height, CellSize), each spanning
      the full width. */
  function HorizontalLines(width: int, height: int): seq<Op>
  {
    seq(LineCount(height), i requires 0 <= i < LineCount(height) =>
      Line(Point(0, LinePos(i)), Point(width, LinePos(i)), Gray))
  }

  /** The glyphs of one grid row y, left to right. */
  function GlyphRow(row: seq<char>, y: int, xOffset: int, yOffset: int): seq<Op>
  {
    seq(|row|, x requires 0 <= x < |row| => Text(Anchor(x, y, xOffset, yOffset), row[x], Black))
  }

  /** The glyphs of the whole grid, row after row. */
  function GlyphOps(art: seq<seq<char>>, xOffset: int, yOffset: int): seq<Op>
  {
    if |art| == 0 then []
    else GlyphOps(art[..|art| - 1], xOffset, yOffset) + GlyphRow(art[|art| - 1], |art| - 1, xOffset, yOffset)
  }

  predicate Rectangular(art: seq<seq<char>>, width: int)
  {
    forall y :: 0 <= y < |art| ==> |art[y]| == width
  }

  /** A grid of h rows of w symbols gives exactly w * h glyphs. */
  lemma {:induction false} GlyphCount(art: seq<seq<char>>, width: nat, xOffset: int, yOffset: int)
    requires Rectangular(art, width)
    ensures |GlyphOps(art, xOffset, yOffset)| == |art| * width
  {
    if |art| > 0 {
      GlyphCount(art[..|art| - 1], width, xOffset, yOffset);
      assert (|art| - 1) * width + width == |art| * width;
    }
  }

  /** In row-major order, glyph number y * w + x is symbol art[y][x] drawn at the anchor of
      cell (x, y). */
  lemma {:induction false} GlyphAt(art: seq<seq<char>>, width: nat, xOffset: int, yOffset: int, x: int, y: int)
    requires Rectangular(art, width)
    requires 0 <= y < |art| && 0 <= x < width
    ensures y * width + x < |GlyphOps(art, xOffset, yOffset)|
    ensures GlyphOps(art, xOffset, yOffset)[y * width + x] ==
            Text(Anchor(x, y, xOffset, yOffset), art[y][x], Black)
  {
    var prefix := art[..|art| - 1];
    GlyphCount(prefix, width, xOffset, yOffset);
    GlyphCount(art, width, xOffset, yOffset);
    assert y * width + x < (y + 1) * width <= |art| * width;
    if y < |art| - 1 {
      GlyphAt(prefix, width, xOffset, yOffset, x, y);
    } else {
      assert |GlyphOps(prefix, xOffset, yOffset)| == y * width;
    }
  }

  /** On a canvas of w by h cells there are exactly w vertical lines, at x = 0, 12, ...,
      12 * (w - 1), from the top edge to the bottom edge; none is at the right edge. */
  lemma VerticalLinesExact(w: nat, h: nat)
    ensures |VerticalLines(LinePos(w), LinePos(h))| == w
    ensures forall op :: op in VerticalLines(LinePos(w), LinePos(h)) ==>
              op.Line? && op.from.x == op.to.x && op.from.x % CellSize == 0 &&
              0 <= op.from.x < LinePos(w) && op.from.y == 0 && op.to.y == LinePos(h)
    ensures forall i :: 0 <= i < w ==>
              Line(Point(LinePos(i), 0), Point(LinePos(i), LinePos(h)), Gray) in VerticalLines(LinePos(w), LinePos(h))
  {
    LineCountOfMultiple(w);
    var v := VerticalLines(LinePos(w), LinePos(h));
    forall i | 0 <= i < w
      ensures Line(Point(LinePos(i), 0), Point(LinePos(i), LinePos(h)), Gray) in v
    {
      assert v[i] == Line(Point(LinePos(i), 0), Point(LinePos(i), LinePos(h)), Gray);
    }
  }

  /** Likewise there are exactly h horizontal lines, at y = 0, 12, ..., 12 * (h - 1), from
      the left edge to the right edge; none is at the bottom edge. */
  lemma HorizontalLinesExact(w: nat, h: nat)
    ensures |HorizontalLines(LinePos(w), LinePos(h))| == h
    ensures forall op :: op in HorizontalLines(LinePos(w), LinePos(h)) ==>
              op.Line? && op.from.y == op.to.y && op.from.y % CellSize == 0 &&
              0 <= op.from.y < LinePos(h) && op.from.x == 0 && op.to.x == LinePos(w)
    ensures forall i :: 0 <= i < h ==>
              Line(Point(0, LinePos(i)), Point(LinePos(w), LinePos(i)), Gray) in HorizontalLines(LinePos(w), LinePos(h))
  {
    LineCountOfMultiple(h);
    var hl := HorizontalLines(LinePos(w), LinePos(h));
    forall i | 0 <= i < h
      ensures Line(Point(0, LinePos(i)), Point(LinePos(w), LinePos(i)), Gray) in hl
    {
      assert hl[i] == Line(Point(0, LinePos(i)), Point(LinePos(w), LinePos(i)), Gray);
    }
  }

  /** Drawing one more line of range(0, extent, CellSize) extends the lines drawn so far. */
  lemma NextVerticalLine(k: nat, height: int)
    ensures VerticalLines(LinePos(k + 1), height) ==
            VerticalLines(LinePos(k), height) + [Line(Point(LinePos(k), 0), Point(LinePos(k), height), Gray)]
  {
  }

  lemma NextHorizontalLine(k: nat, width: int)
    ensures HorizontalLines(width, LinePos(k + 1)) ==
            HorizontalLines(width, LinePos(k)) + [Line(Point(0, LinePos(k)), Point(width, LinePos(k)), Gray)]
  {
  }

  /** Drawing the glyph of cell x extends the glyphs of row y drawn so far. */
  lemma NextGlyph(row: seq<char>, x: int, y: int, xOffset: int, yOffset: int)
    requires 0 <= x < |row|
    ensures GlyphRow(row[..x + 1], y, xOffset, yOffset) ==
            GlyphRow(row[..x], y, xOffset, yOffset) + [Text(Anchor(x, y, xOffset, yOffset), row[x], Black)]
  {
  }

  /** Drawing all of row y extends the glyphs of the rows before it. */
  lemma NextRow(art: seq<seq<char>>, y: int, xOffset: int, yOffset: int)
    requires 0 <= y < |art|
    ensures GlyphOps(art[..y + 1], xOffset, yOffset) ==
            GlyphOps(art[..y], xOffset, yOffset) + GlyphRow(art[y][..|art[y]|], y, xOffset, yOffset)
  {
    assert art[..y + 1][..y] == art[..y];
    assert art[y][..|art[y]|] == art[y];
  }

  /** Draws the glyphs of the grid on the canvas, row by row, each at its cell's anchor. */
  method DrawGlyphs(canvas: Canvas, art: seq<seq<char>>, xOffset: int, yOffset: int)
    modifies canvas
    ensures canvas.ops == old(canvas.ops) + GlyphOps(art, xOffset, yOffset)
  {
    var y := 0;
    while y < |art|
      invariant 0 <= y <= |art|
      invariant canvas.ops == old(canvas.ops) + GlyphOps(art[..y], xOffset, yOffset)
    {
      var row := art[y];
      var x := 0;
      while x < |row|
        invariant 0 <= x <= |row|
        invariant canvas.ops == old(canvas.ops) + GlyphOps(art[..y], xOffset, yOffset) + GlyphRow(row[..x], y, xOffset, yOffset)
      {
        canvas.DrawText(Anchor(x, y, xOffset, yOffset), row[x], Black);
        NextGlyph(row, x, y, xOffset, yOffset);
        x := x + 1;
      }
      NextRow(art, y, xOffset, yOffset);
      y := y + 1;
    }
    assert art[..y] == art;
  }

  /** Draws a vertical line at every value of range(0, width, CellSize), where width is
      width cells. */
  method DrawVerticalLines(canvas: Canvas, cells: nat, height: int)
    modifies canvas
    ensures canvas.ops == old(canvas.ops) + VerticalLines(cells * CellSize, height)
  {
    var width := cells * CellSize;
    var lineX := 0;
    ghost var k: nat := 0;
    while lineX < width
      invariant k <= cells && lineX == LinePos(k)
      invariant canvas.ops == old(canvas.ops) + VerticalLines(lineX, height)
    {
      canvas.DrawLine(Point(lineX, 0), Point(lineX, height), Gray);
      NextVerticalLine(k, height);
      lineX, k := lineX + CellSize, k + 1;
    }
  }

  /** Draws a horizontal line at every value of range(0, height, CellSize), where height is
      cells cells. */
  method DrawHorizontalLines(canvas: Canvas, width: int, cells: nat)
    modifies canvas
    ensures canvas.ops == old(canvas.ops) + HorizontalLines(width, cells * CellSize)
  {
    var height := cells * CellSize;
    var lineY := 0;
    ghost var k: nat := 0;
    while lineY < height
      invariant k <= cells && lineY == LinePos(k)
      invariant canvas.ops == old(canvas.ops) + HorizontalLines(width, lineY)
    {
      canvas.DrawLine(Point(0, lineY), Point(width, lineY), Gray);
      NextHorizontalLine(k, width);
      lineY, k := lineY + CellSize, k + 1;
    }
  }

  /** Draws the grid of symbols on a fresh white canvas of width by height cells: every
      glyph, row by row, at its cell's corner plus the centring offsets measured from a
      reference glyph of glyphWidth by glyphHeight pixels; then the vertical and the
      horizontal gridlines. */
  method Render(art: seq<seq<char>>, width: nat, height: nat, glyphWidth: int, glyphHeight: int)
    returns (canvas: Canvas)
    ensures fresh(canvas)
    ensures canvas.width == width * CellSize && canvas.height == height * CellSize
    ensures canvas.background == White
    ensures canvas.ops ==
            GlyphOps(art, Offset(glyphWidth), Offset(glyphHeight)) +
            VerticalLines(width * CellSize, height * CellSize) +
            HorizontalLines(width * CellSize, height * CellSize)
  {
    var outWidth, outHeight := width * CellSize, height * CellSize;
    canvas := new Canvas(outWidth, outHeight, White);
    DrawGlyphs(canvas, art, Offset(glyphWidth), Offset(glyphHeight));
    DrawVerticalLines(canvas, width, outHeight);
    DrawHorizontalLines(canvas, outWidth, height);
  }

  /** A grid of 2 by 2 cells: a 24 by 24 canvas, 4 glyphs, 2 vertical and 2 horizontal
      lines (at 0 and 12; none on the right or bottom edge). */
  lemma TwoByTwo(art: seq<seq<char>>, xOffset: int, yOffset: int)
    requires |art| == 2 && Rectangular(art, 2)
    ensures |GlyphOps(art, xOffset, yOffset)| == 4
    ensures VerticalLines(24, 24) ==
            [Line(Point(0, 0), Point(0, 24), Gray), Line(Point(12, 0), Point(12, 24), Gray)]
    ensures HorizontalLines(24, 24) ==
            [Line(Point(0, 0), Point(24, 0), Gray), Line(Point(0, 12), Point(24, 12), Gray)]
  {
    GlyphCount(art, 2, xOffset, yOffset);
    LineCountOfMultiple(2);
    assert LinePos(2) == 24;
  }
}

=== FILE: validation.dfy ===
/** The input check made before any image is opened: the path must exist and its
    lower-cased form must end in one of the accepted image extensions. */
module Validation {

  const ImageExtensions: seq<string> := [".jpg", ".jpeg", ".png"]

  predicate IsUpper(c: char) { 'A' <= c <= 'Z' }

  /** Lower-casing of one character (ASCII letters only). */
  function LowerChar(c: char): (l: char)
    ensures !IsUpper(l)
    ensures IsUpper(c) ==> l as int == c as int + 32
    ensures !IsUpper(c) ==> l == c
  {
    if IsUpper(c) then (c as int - 'A' as int + 'a' as int) as char else c
  }

  /** The lower-cased form of a path, character by character. */
  function Lower(s: string): string
  {
    seq(|s|, i requires 0 <= i < |s| => LowerChar(s[i]))
  }

  /** The lower-cased path keeps its length, holds no upper-case letter, differs from the
      path only where the path has an upper-case letter, and lower-casing it again
      changes nothing. */
  lemma LowerIsLowerCase(s: string)
    ensures |Lower(s)| == |s|
    ensures forall i :: 0 <= i < |s| ==> !IsUpper(Lower(s)[i])
    ensures forall i :: 0 <= i < |s| && !IsUpper(s[i]) ==> Lower(s)[i] == s[i]
    ensures Lower(Lower(s)) == Lower(s)
  {
  }

  predicate EndsWith(s: string, suffix: string)
  {
    |suffix| <= |s| && s[|s| - |suffix|..] == suffix
  }

  /** The path is accepted for conversion. */
  predicate Accepted(path: string, pathExists: bool)
  {
    pathExists && (EndsWith(Lower(path), ".jpg") || EndsWith(Lower(path), ".jpeg") || EndsWith(Lower(path), ".png"))
  }

  /** c and the lower-case character e agree when case is ignored. */
  predicate SameIgnoringCase(c: char, e: char)
  {
    c == e || (IsUpper(c) && c as int + 32 == e as int)
  }

  /** path ends in ext, compared letter by letter regardless of case
      (the independent reading of "the lower-cased path ends with ext"). */
  predicate HasExtension(path: string, ext: string)
  {
    |ext| <= |path| &&
    forall i :: 0 <= i < |ext| ==> SameIgnoringCase(path[|path| - |ext| + i], ext[i])
  }

  lemma LowerEndsWith(path: string, ext: string)
    requires forall i :: 0 <= i < |ext| ==> !IsUpper(ext[i])
    ensures EndsWith(Lower(path), ext) <==> HasExtension(path, ext)
  {
  }

  /** A path is accepted exactly when it exists and ends, ignoring case, in one of
      the accepted extensions. */
  lemma AcceptedIff(path: string, pathExists: bool)
    ensures Accepted(path, pathExists) <==>
            pathExists && exists e :: e in ImageExtensions && HasExtension(path, e)
  {
    LowerEndsWith(path, ".jpg");
    LowerEndsWith(path, ".jpeg");
    LowerEndsWith(path, ".png");
    assert ImageExtensions == [".jpg", ".jpeg", ".png"];
    if HasExtension(path, ".jpg") { assert ".jpg" in ImageExtensions; }
    if HasExtension(path, ".jpeg") { assert ".jpeg" in ImageExtensions; }
    if HasExtension(path, ".png") { assert ".png" in ImageExtensions; }
  }

  /** The test does not depend on the case of the path. */
  lemma AcceptedIgnoresCase(path: string, pathExists: bool)
    ensures Accepted(Lower(path), pathExists) == Accepted(path, pathExists)
  {
    LowerIsLowerCase(path);
  }

  /** A path that does not exist is never accepted, whatever its extension. */
  lemma MissingRejected(path: string)
    ensures !Accepted(path, false)
  {
  }

  lemma AcceptanceExamples()
    ensures !Accepted("missing.gif", true)
    ensures Accepted("photo.JPEG", true)
    ensures Accepted("test_img_2.jpg", true)
    ensures !Accepted("image.jpg.txt", true)
  {
    // The last four and five characters of each lower-cased path decide the verdict.
    assert Lower("missing.gif")[7..] == ".gif";
    assert Lower("missing.gif")[6..] == "g.gif";
    assert Lower("photo.JPEG")[5..] == ".jpeg";
    assert Lower("test_img_2.jpg")[10..] == ".jpg";
    assert Lower("image.jpg.txt")[9..] == ".txt";
    assert Lower("image.jpg.txt")[8..] == "g.txt";
  }
}
